=== FILE: README.md ===
# Perplex Kraken: change detection and the after-save loop

This project models the core of `UmbracoEvent` in the Perplex Kraken package
for Umbraco. The package sends media images to the Kraken.io compression API
whenever they are saved. The core has four parts.

- Before a save (`MediaService_Saving`), the handler takes a snapshot of every
  node in the batch. This is `UmbracoEventMediaData`, with one
  `UmbracoEventFile` per node holding the node's id, image reference, height,
  width and size.
- Height, width and size are read defensively. An `int` is used as it is. A
  string goes through `int.TryParse`. Anything else gives 0.
- `HasChanged` finds the first snapshot with the node's id and compares it
  field by field.
- After the save (`MediaService_Saved`), the handler walks the batch in
  order. It decides from the krak status and the change flag whether to
  compress a node. It saves only successful results. When the API raises a
  `KrakenException`, its status decides whether the handler returns or goes
  on with the next node. Any other exception is swallowed by the outer catch,
  which ends the loop.

Files and modules:

- `media.dfy`, module `Media`: property values, media nodes and the defensive read `ReadInt`.
- `snapshots.dfy`, module `Snapshots`: `EventFile`, `MediaData`, `Build`, `FindFirst` and `HasChanged`, with their lemmas.
- `policy.dfy`, module `KrakPolicy`: the process decision `ShouldCompress` and the exception switch `Classify`.
- `handler.dfy`, module `SaveHandler`: the two event handlers, `BeforeSave` and `AfterSave`. Each node's `try` block is `ProcessItem` and the loop is `RunFrom`.
- `batch.dfy`, module `BatchProperties`: properties of the loop as a whole.
- `scenarios.dfy`, module `Scenarios`: worked examples of whole save cycles.

The host and the Kraken API are inputs to the model. `Kraken.GetImage` is the
node's `image` field, and `IMedia.GetValue` is a lookup in the node's property
map. `int.TryParse` is a `Parser` function passed in. The answers of
`Kraken.GetKrakStatus`, `Kraken.Compress` and `result.Save` are given per batch
entry as a `Script`. Each answer either returns a value or raises a
`KrakenException(status)` or some other exception. The after-save handler
returns a `Run`: the `Compress` and `Save` calls it issued, identified by
batch position, and how it ended. The handler's mutable field
`_umbracoEventMediaData` becomes an `Option<MediaData>`. `BeforeSave`
produces it and `AfterSave` consumes it.

Behaviour of the handler worth noting:

- A missing snapshot set makes the change check raise, because
  `_umbracoEventMediaData.HasChanged` dereferences a null field. The outer
  catch then ends the handler before any node is compressed.
- The snapshot set outlives its batch. When the setting is off during the
  before-save event, the field keeps the previous batch's snapshot, and
  `BeforeSave` returns `current` unchanged.
- An exception other than a `KrakenException` ends the loop at the node that
  raised it. Calls already issued for earlier nodes remain.
- A `KrakenException` with status `Ok` continues with the next node, like
  FileTooLarge, UnsupportedMediaType, UnprocessableEntity and unlisted
  statuses.

## Model

| member | source | states |
|---|---|---|
| Media.ReadInt | PerplexKraken/UmbracoEvents.cs:167-186 | an `int` value is returned unchanged; a string gives its parsed value, or 0 when it does not parse; null or any other type gives 0; a non-zero result always comes from the value itself |
| Media.ReadProperty | PerplexKraken/UmbracoEvents.cs:120-140 | a missing alias reads as 0, a boxed `int` as itself, a string as its parsed value or 0 when it does not parse, a value of another type as 0 |
| Snapshots.Capture | PerplexKraken/UmbracoEvents.cs:163-187 | the snapshot holds the node's id and image reference, and its height, width and size each read defensively under their own alias |
| Snapshots.Build | PerplexKraken/UmbracoEvents.cs:106-110 | exactly one snapshot per input node, in input order, each with the node's id and image reference and its defensively read height, width and size |
| Snapshots.FindFirst | PerplexKraken/UmbracoEvents.cs:117 | the position found carries the id and no earlier snapshot does; `None` only when no snapshot carries the id |
| Snapshots.HasChanged | PerplexKraken/UmbracoEvents.cs:112-149 | false for a null node and for an id no snapshot holds; otherwise true iff the node's current attributes differ from the earliest snapshot with its id |
| Snapshots.BuildAppend | PerplexKraken/UmbracoEvents.cs:108-109 | snapshotting a concatenated batch gives the concatenation of the two snapshots |
| Snapshots.UnchangedNodeReportsNoChange | PerplexKraken/UmbracoEvents.cs:142-145 | a node compared against its own snapshot reports no change, provided no earlier node in the batch has its id |
| Snapshots.LaterSnapshotsIgnored | PerplexKraken/UmbracoEvents.cs:117 | with duplicate ids the earliest snapshot decides: appending snapshots never changes the answer for an id already present |
| Snapshots.ChangedIffDiffersFromOwnSnapshot | PerplexKraken/UmbracoEvents.cs:142-145 | a node is reported changed iff its image reference, height, width or size differs from the values it had when its batch was snapshotted |
| KrakPolicy.ShouldCompress | PerplexKraken/UmbracoEvents.cs:59-60 | `Krakable` always compresses; `Kraked` compresses iff changed; any other status never does |
| KrakPolicy.Classify | PerplexKraken/UmbracoEvents.cs:72-88 | the handler returns exactly for BadRequest, Unauthorized, Forbidden, RequestLimitReached and UnexpectedError; Ok, FileTooLarge, UnsupportedMediaType, UnprocessableEntity and unlisted statuses continue |
| KrakPolicy.StatusesPartitioned | PerplexKraken/UmbracoEvents.cs:74-87 | every status is fatal, tolerable or unlisted; no status is both fatal and tolerable; a status continues iff it is tolerable or unlisted |
| SaveHandler.BeforeSave | PerplexKraken/UmbracoEvents.cs:30-44 | when enabled, the field holds a snapshot with one entry per node, in order, each the node's id, image reference and defensively read height, width and size; when disabled, the field keeps its previous value |
| SaveHandler.ChangeCheck | PerplexKraken/UmbracoEvents.cs:55 | the change check raises a non-Kraken exception exactly when no snapshot set is present; otherwise it returns `HasChanged`, and a positive answer means some snapshot carries the node's id |
| SaveHandler.ProcessItem | PerplexKraken/UmbracoEvents.cs:52-69 | a node's turn issues `Compress` iff the change check and status query return and the decision says go; it issues `Save` iff compression also returned a non-null successful result, and passes the change flag; `Compress` comes first and is issued at most once, so a turn issues two calls when it saves, one when it only compresses, none otherwise; a missing snapshot raises before any call; an exception from the status query, `Compress` or `Save` is handed to the catch clauses unchanged, and a null or unsuccessful result raises nothing |
| SaveHandler.RunFrom | PerplexKraken/UmbracoEvents.cs:51-89 | every call in the trace belongs to a node of the batch that the loop reached; an ending `Stopped(s)` carries a fatal status `s` (each reached node's calls appear once, in batch order: `BatchProperties.TraceOrderedNoRepeat`) |
| SaveHandler.AfterSave | PerplexKraken/UmbracoEvents.cs:46-96 | disabled means no calls; enabled with no snapshot and a non-empty batch ends swallowed with no calls; every call belongs to a reached node |
| BatchProperties.CallsOfReachedNodes | PerplexKraken/UmbracoEvents.cs:51-89 | a call is in the loop's trace iff its node is reached and that node's turn issues it |
| BatchProperties.TurnCallsOnce | PerplexKraken/UmbracoEvents.cs:61-67 | one node's turn never issues the same call twice |
| BatchProperties.TraceOrderedNoRepeat | PerplexKraken/UmbracoEvents.cs:51-89 | the loop's calls go in batch order and none occurs twice: each reached node is compressed at most once and saved at most once |
| BatchProperties.CallsIssuedOnce | PerplexKraken/UmbracoEvents.cs:46-96 | the after-save handler issues its calls in batch order, each at most once |
| BatchProperties.CompressCalledIff | PerplexKraken/UmbracoEvents.cs:55-63 | a node gets `Compress` iff the handler is enabled, the loop reaches the node, and the change check, status and decision say go |
| BatchProperties.SaveCalledIff | PerplexKraken/UmbracoEvents.cs:63-67 | a node gets `Save(wasFileChanged)` iff it is compressed and the result is non-null with success set, and `wasFileChanged` is its change flag |
| BatchProperties.CompletedIffNoHalt | PerplexKraken/UmbracoEvents.cs:70-95 | the loop completes iff no node raises a fatal `KrakenException` or another exception |
| BatchProperties.HaltEndsBatch | PerplexKraken/UmbracoEvents.cs:74-80 | after a reached node halts the loop, no later node gets any call and the handler does not complete |
| BatchProperties.HaltingNodeDecidesEnding | PerplexKraken/UmbracoEvents.cs:70-95 | when the loop reaches a node that halts it, the handler ends stopped with that node's fatal status, or swallowed for any other exception |
| BatchProperties.FatalCompressErrorStopsHandler | PerplexKraken/UmbracoEvents.cs:63-80 | a reached node whose `Compress` raises a fatal `KrakenException` is the last node with any call, and the handler ends stopped with that status |
| BatchProperties.OtherFailureSwallowed | PerplexKraken/UmbracoEvents.cs:91-95 | a reached node raising a non-Kraken exception is the last node with any call, and the handler ends swallowed |
| BatchProperties.FailedResultMovesOn | PerplexKraken/UmbracoEvents.cs:63-67 | a reached node whose `Compress` returns null or an unsuccessful result is compressed, not saved, and the loop reaches the next node |
| BatchProperties.TolerableFailureContinues | PerplexKraken/UmbracoEvents.cs:81-87 | a reached node whose `Compress` raises a `KrakenException` with a non-fatal status gets its `Compress` call, no `Save`, and the loop reaches the next node |
| BatchProperties.RunFromPrefix | PerplexKraken/UmbracoEvents.cs:51-89 | the loop's trace over the first k nodes is a prefix of its trace over the whole batch |
| BatchProperties.EarlierCallsRemain | PerplexKraken/UmbracoEvents.cs:63-80 | calls issued for earlier nodes, saves included, stay in the trace whatever later nodes do |
| BatchProperties.UnchangedCycle | PerplexKraken/UmbracoEvents.cs:34-63 | in a full enabled cycle with unchanged nodes, a `Kraked` node is never compressed again and a reached `Krakable` node always is |
| Scenarios.UnparsableHeightReadsZero | PerplexKraken/UmbracoEvents.cs:168-173 | a height stored as the unparsable text "abc" is captured as 0 |
| Scenarios.KrakedNodeRecompressedOnlyWhenChanged | PerplexKraken/UmbracoEvents.cs:59-67 | a kraked node saved unchanged gets no call; the same node with a new size is compressed and saved with `wasFileChanged` true |
| Scenarios.UnauthorizedStopsBatch | PerplexKraken/UmbracoEvents.cs:70-80 | when the second of three nodes is refused with Unauthorized, the first node's save stays, the third node gets no call, and the handler ends stopped |
| Scenarios.FailedResultSkipsSave | PerplexKraken/UmbracoEvents.cs:63-67 | a result with `success` false is not saved and the next node is still compressed and saved |
| Scenarios.TolerableErrorSkipsNode | PerplexKraken/UmbracoEvents.cs:81-87 | FileTooLarge skips its own node and the next node is still compressed and saved |

## Left out

- Event subscription in the constructor and the static `MediaService` events (lines 15-20) are host wiring. The model calls `BeforeSave` and `AfterSave` directly.
- The package uninstall hook `InstalledPackage_BeforeDelete` (lines 22-28) only triggers `Kraken.Uninstall`, which is not part of this model.
- `Kraken.Compress`, `Kraken.GetImage`, `Kraken.GetKrakStatus`, `result.Save` and `Configuration.Settings` are not part of this model. They do HTTP and persistence, so their answers are inputs: the node's `image` field, the per-entry `Script` and the `enabled` flag.
- `int.TryParse` is an abstract `Parser`. Culture, whitespace and `Int32` overflow rules are not modelled.
- The `Constants` class is not part of this model. The property aliases use Umbraco's default names `umbracoHeight`, `umbracoWidth` and `umbracoBytes`. Only their role as map keys matters.
- Null entries in a saved batch are not modelled. `HasChanged` still takes an optional node to model its own null guard.
- Exceptions raised by `GetImage` or `GetValue` are not modelled, neither during snapshot capture nor inside the after-save change check. The model's reads are total. In the code, such an exception during capture would be swallowed and the previous snapshot left in place. Inside the change check it would reach the catch clauses exactly as if the status query had raised it, which the model can express.
- Status queries are left out of the `Run` trace, which records only `Compress` and `Save` calls. Their outcome is still an input, through the per-entry `Script`.
- The snapshot set is treated as fixed for the whole after-save loop. The code reads the field `_umbracoEventMediaData` again for every node, so a save event fired inside the loop (for example if `result.Save` saves through the media service) would replace it for later nodes. Such nested save events are not modelled.
- Concurrency between save events is not modelled. The model assumes that the before-save and after-save events of a batch arrive one after the other.

=== FILE: batch.dfy ===
/** Properties of the after-save loop as a whole: which nodes receive
    `Compress` and `Save` calls, how the handler ends, what an abort leaves
    behind, and what a full before/after save cycle does to unchanged nodes. */
module BatchProperties {
  import opened Media
  import opened Snapshots
  import opened KrakPolicy
  import opened SaveHandler

  /** The loop issues exactly the calls of the nodes it reaches, each as the
      node's own turn issues it. */
  lemma {:induction false} CallsOfReachedNodes(data: Option<MediaData>, batch: seq<Entry>, parse: Parser, from: nat, c: HostCall)
    requires from <= |batch|
    ensures c in RunFrom(data, batch, from, parse).trace
            <==> from <= c.pos < |batch|
                 && Reached(data, batch, parse, from, c.pos)
                 && c in ProcessItem(data, batch[c.pos], c.pos, parse).calls
    decreases |batch| - from
  {
    if from < |batch| {
      var item := ProcessItem(data, batch[from], from, parse);
      var run := RunFrom(data, batch, from, parse);
      if c.pos == from {
        assert Reached(data, batch, parse, from, from);
      } else if from < c.pos < |batch| {
        if Halts(item) {
          assert !Reached(data, batch, parse, from, c.pos);
        } else {
          CallsOfReachedNodes(data, batch, parse, from + 1, c);
          var rest := RunFrom(data, batch, from + 1, parse);
          assert run.trace == item.calls + rest.trace;
          assert Reached(data, batch, parse, from, c.pos) <==> Reached(data, batch, parse, from + 1, c.pos);
        }
      }
    }
  }

  /** The calls go by batch position, and no call occurs twice. */
  predicate OrderedNoRepeat(t: seq<HostCall>) {
    forall i, j :: 0 <= i < j < |t| ==> t[i].pos <= t[j].pos && t[i] != t[j]
  }

  /** One node's turn issues `Compress` once and `Save` at most once. */
  lemma TurnCallsOnce(data: Option<MediaData>, e: Entry, pos: nat, parse: Parser)
    ensures OrderedNoRepeat(ProcessItem(data, e, pos, parse).calls)
  {
    var calls := ProcessItem(data, e, pos, parse).calls;
    if |calls| == 2 {
      assert SaveCall(pos, HasChanged(data.value, Some(e.node), parse)) in calls;
    }
  }

  /** Calls at position `p`, followed by calls at later positions, keep the
      order and stay free of repeats. */
  lemma OrderedConcat(a: seq<HostCall>, b: seq<HostCall>, p: nat)
    requires OrderedNoRepeat(a) && OrderedNoRepeat(b)
    requires forall c :: c in a ==> c.pos == p
    requires forall c :: c in b ==> p < c.pos
    ensures OrderedNoRepeat(a + b)
  {
    var t := a + b;
    forall i, j | 0 <= i < j < |t|
      ensures t[i].pos <= t[j].pos && t[i] != t[j]
    {
      if j < |a| {
        assert t[i] == a[i] && t[j] == a[j];
      } else if i < |a| {
        assert t[i] == a[i] && t[j] == b[j - |a|];
        assert t[i] in a && t[j] in b;
      } else {
        assert t[i] == b[i - |a|] && t[j] == b[j - |a|];
      }
    }
  }

  /** The loop issues the calls of the nodes it reaches in batch order, each
      of them once: no node is compressed or saved twice. */
  lemma {:induction false} TraceOrderedNoRepeat(data: Option<MediaData>, batch: seq<Entry>, parse: Parser, from: nat)
    requires from <= |batch|
    ensures OrderedNoRepeat(RunFrom(data, batch, from, parse).trace)
    decreases |batch| - from
  {
    if from < |batch| {
      var item := ProcessItem(data, batch[from], from, parse);
      TurnCallsOnce(data, batch[from], from, parse);
      if !Halts(item) {
        TraceOrderedNoRepeat(data, batch, parse, from + 1);
        var rest := RunFrom(data, batch, from + 1, parse).trace;
        OrderedConcat(item.calls, rest, from);
        assert RunFrom(data, batch, from, parse).trace == item.calls + rest;
      }
    }
  }

  /** The whole after-save handler compresses and saves each node at most once,
      in batch order. */
  lemma CallsIssuedOnce(enabled: bool, data: Option<MediaData>, batch: seq<Entry>, parse: Parser)
    ensures OrderedNoRepeat(AfterSave(enabled, data, batch, parse).trace)
  {
    if enabled {
      TraceOrderedNoRepeat(data, batch, parse, 0);
    }
  }

  /** A node receives a `Compress` call iff the handler is enabled, the loop
      reaches it, and its change check, status and process decision say go. */
  lemma CompressCalledIff(enabled: bool, data: Option<MediaData>, batch: seq<Entry>, parse: Parser, k: nat)
    ensures CompressCall(k) in AfterSave(enabled, data, batch, parse).trace
            <==> enabled && k < |batch| && Reached(data, batch, parse, 0, k) && CompressDue(data, batch[k], parse)
  {
    if enabled {
      CallsOfReachedNodes(data, batch, parse, 0, CompressCall(k));
    }
  }

  /** A node receives a `Save` call iff it is compressed and the result is
      non-null and reports success; the call passes the node's change flag. */
  lemma SaveCalledIff(enabled: bool, data: Option<MediaData>, batch: seq<Entry>, parse: Parser, k: nat, changed: bool)
    ensures SaveCall(k, changed) in AfterSave(enabled, data, batch, parse).trace
            <==> && enabled && k < |batch| && Reached(data, batch, parse, 0, k)
                 && SaveDue(data, batch[k], parse)
                 && changed == HasChanged(data.value, Some(batch[k].node), parse)
  {
    if enabled {
      CallsOfReachedNodes(data, batch, parse, 0, SaveCall(k, changed));
    }
  }

  /** The loop completes iff no node halts it. */
  lemma {:induction false} CompletedIffNoHalt(data: Option<MediaData>, batch: seq<Entry>, parse: Parser, from: nat)
    requires from <= |batch|
    ensures RunFrom(data, batch, from, parse).ending == Completed <==> Reached(data, batch, parse, from, |batch|)
    decreases |batch| - from
  {
    if from < |batch| {
      var item := ProcessItem(data, batch[from], from, parse);
      if !Halts(item) {
        CompletedIffNoHalt(data, batch, parse, from + 1);
        assert Reached(data, batch, parse, from, |batch|) <==> Reached(data, batch, parse, from + 1, |batch|);
      }
    }
  }

  /** Once the node at position `k` halts the loop (a fatal `KrakenException`
      or any other exception), no later node gets a call and the handler does
      not complete; calls already issued stay in the trace. */
  lemma HaltEndsBatch(data: Option<MediaData>, batch: seq<Entry>, parse: Parser, k: nat)
    requires k < |batch|
    requires Reached(data, batch, parse, 0, k)
    requires Halts(ProcessItem(data, batch[k], k, parse))
    ensures forall c :: c in AfterSave(true, data, batch, parse).trace ==> c.pos <= k
    ensures AfterSave(true, data, batch, parse).ending != Completed
  {
    CompletedIffNoHalt(data, batch, parse, 0);
    assert !Reached(data, batch, parse, 0, |batch|);
  }

  /** When the loop reaches a node that halts it, that node alone decides how
      the handler ends: a fatal `KrakenException` makes it `return` with that
      status, any other exception is swallowed by the outer catch. */
  lemma {:induction false} HaltingNodeDecidesEnding(data: Option<MediaData>, batch: seq<Entry>, parse: Parser, from: nat, k: nat)
    requires from <= k < |batch|
    requires Reached(data, batch, parse, from, k)
    requires Halts(ProcessItem(data, batch[k], k, parse))
    ensures var x := ProcessItem(data, batch[k], k, parse).raised.value;
            RunFrom(data, batch, from, parse).ending == (if x.OtherException? then Swallowed else Stopped(x.status))
    decreases k - from
  {
    var item := ProcessItem(data, batch[from], from, parse);
    if from < k {
      assert !Halts(item);
      assert Reached(data, batch, parse, from + 1, k);
      HaltingNodeDecidesEnding(data, batch, parse, from + 1, k);
      assert RunFrom(data, batch, from, parse).ending == RunFrom(data, batch, from + 1, parse).ending;
    }
  }

  /** A reached node whose `Compress` call raises a `KrakenException` with a
      fatal status ends the handler with that status: no later node gets any
      call, and the calls already issued stay. */
  lemma FatalCompressErrorStopsHandler(data: Option<MediaData>, batch: seq<Entry>, parse: Parser, k: nat, s: ApiStatus)
    requires k < |batch|
    requires Reached(data, batch, parse, 0, k)
    requires CompressDue(data, batch[k], parse)
    requires batch[k].script.compress == Raises(KrakenException(s))
    requires s in FatalStatuses
    ensures forall c :: c in AfterSave(true, data, batch, parse).trace ==> c.pos <= k
    ensures CompressCall(k) in AfterSave(true, data, batch, parse).trace
    ensures AfterSave(true, data, batch, parse).ending == Stopped(s)
  {
    HaltEndsBatch(data, batch, parse, k);
    HaltingNodeDecidesEnding(data, batch, parse, 0, k);
    CompressCalledIff(true, data, batch, parse, k);
  }

  /** A reached node whose change check or status query or `Compress` or `Save`
      call raises anything other than a `KrakenException` ends the handler
      silently, with no call for any later node. */
  lemma OtherFailureSwallowed(data: Option<MediaData>, batch: seq<Entry>, parse: Parser, k: nat)
    requires k < |batch|
    requires Reached(data, batch, parse, 0, k)
    requires ProcessItem(data, batch[k], k, parse).raised == Some(OtherException)
    ensures forall c :: c in AfterSave(true, data, batch, parse).trace ==> c.pos <= k
    ensures AfterSave(true, data, batch, parse).ending == Swallowed
  {
    HaltEndsBatch(data, batch, parse, k);
    HaltingNodeDecidesEnding(data, batch, parse, 0, k);
  }

  /** A reached node whose `Compress` call returns null or a result without
      `success` is compressed but not saved, and the loop goes on to the next
      node. */
  lemma FailedResultMovesOn(data: Option<MediaData>, batch: seq<Entry>, parse: Parser, k: nat, changed: bool)
    requires k < |batch|
    requires Reached(data, batch, parse, 0, k)
    requires CompressDue(data, batch[k], parse)
    requires batch[k].script.compress.Returns?
    requires batch[k].script.compress.value.None? || !batch[k].script.compress.value.value.success
    ensures CompressCall(k) in AfterSave(true, data, batch, parse).trace
    ensures SaveCall(k, changed) !in AfterSave(true, data, batch, parse).trace
    ensures Reached(data, batch, parse, 0, k + 1)
  {
    CompressCalledIff(true, data, batch, parse, k);
    SaveCalledIff(true, data, batch, parse, k, changed);
    assert !Halts(ProcessItem(data, batch[k], k, parse));
  }

  /** A reached node whose `Compress` call raises a `KrakenException` with a
      status the switch does not treat as fatal is skipped: it gets its one
      `Compress` call, no `Save`, and the loop goes on to the next node. */
  lemma TolerableFailureContinues(data: Option<MediaData>, batch: seq<Entry>, parse: Parser, k: nat, s: ApiStatus, changed: bool)
    requires k < |batch|
    requires Reached(data, batch, parse, 0, k)
    requires CompressDue(data, batch[k], parse)
    requires batch[k].script.compress == Raises(KrakenException(s))
    requires s !in FatalStatuses
    ensures CompressCall(k) in AfterSave(true, data, batch, parse).trace
    ensures SaveCall(k, changed) !in AfterSave(true, data, batch, parse).trace
    ensures Reached(data, batch, parse, 0, k + 1)
  {
    CompressCalledIff(true, data, batch, parse, k);
    SaveCalledIff(true, data, batch, parse, k, changed);
    assert !Halts(ProcessItem(data, batch[k], k, parse));
  }

  /** One step of the loop: a node that halts it contributes its calls and
      nothing follows; any other node's calls are followed by the rest of the loop. */
  lemma RunFromStep(data: Option<MediaData>, batch: seq<Entry>, parse: Parser, from: nat)
    requires from < |batch|
    ensures var item := ProcessItem(data, batch[from], from, parse);
            RunFrom(data, batch, from, parse).trace
            == if Halts(item) then item.calls else item.calls + RunFrom(data, batch, from + 1, parse).trace
  {
  }

  /** Two traces that start with the same calls and go on with a prefix and
      its extension stand in the prefix relation themselves. */
  lemma PrefixAfterSameCalls(shortRun: seq<HostCall>, longRun: seq<HostCall>, calls: seq<HostCall>, short: seq<HostCall>, long: seq<HostCall>)
    requires shortRun == calls + short && longRun == calls + long
    requires short <= long
    ensures shortRun <= longRun
  {
    assert longRun[..|shortRun|] == calls + long[..|short|];
  }

  /** One step of the prefix argument: if the loop over the first `k` nodes
      and the loop over the whole batch issue prefix-related calls from
      `from + 1` on, they do so from `from` on as well. */
  lemma PrefixStep(data: Option<MediaData>, batch: seq<Entry>, parse: Parser, k: nat, from: nat)
    requires from < k <= |batch|
    requires RunFrom(data, batch[..k], from + 1, parse).trace <= RunFrom(data, batch, from + 1, parse).trace
    ensures RunFrom(data, batch[..k], from, parse).trace <= RunFrom(data, batch, from, parse).trace
  {
    var front := batch[..k];
    assert front[from] == batch[from];
    RunFromStep(data, front, parse, from);
    RunFromStep(data, batch, parse, from);
    var item := ProcessItem(data, batch[from], from, parse);
    if !Halts(item) {
      PrefixAfterSameCalls(RunFrom(data, front, from, parse).trace, RunFrom(data, batch, from, parse).trace,
                           item.calls, RunFrom(data, front, from + 1, parse).trace, RunFrom(data, batch, from + 1, parse).trace);
    }
  }

  /** Running a longer batch never takes back a call: the calls issued for
      the first `k` nodes are a prefix of those issued for the whole batch. */
  lemma {:induction false} RunFromPrefix(data: Option<MediaData>, batch: seq<Entry>, parse: Parser, k: nat, from: nat)
    requires from <= k <= |batch|
    ensures RunFrom(data, batch[..k], from, parse).trace <= RunFrom(data, batch, from, parse).trace
    decreases k - from
  {
    if from < k {
      RunFromPrefix(data, batch, parse, k, from + 1);
      PrefixStep(data, batch, parse, k, from);
    }
  }

  /** Calls already made for the first `k` nodes are never undone by what
      happens to later nodes. */
  lemma EarlierCallsRemain(enabled: bool, data: Option<MediaData>, batch: seq<Entry>, parse: Parser, k: nat)
    requires k <= |batch|
    ensures AfterSave(enabled, data, batch[..k], parse).trace <= AfterSave(enabled, data, batch, parse).trace
  {
    if enabled {
      RunFromPrefix(data, batch, parse, k, 0);
    }
  }

  /** The nodes of a batch, in order. */
  function Nodes(batch: seq<Entry>): (nodes: seq<MediaNode>)
    ensures |nodes| == |batch|
    ensures forall i :: 0 <= i < |batch| ==> nodes[i] == batch[i].node
  {
    seq(|batch|, i requires 0 <= i < |batch| => batch[i].node)
  }

  /** A full save cycle with the setting on and nodes whose attributes the
      save left alone: a node kraked before is never compressed again, and a
      node never kraked is compressed once the loop reaches it (its id must
      not repeat an earlier node's, since the earliest snapshot decides). */
  lemma UnchangedCycle(batch: seq<Entry>, previous: Option<MediaData>, parse: Parser, k: nat)
    requires k < |batch|
    requires forall j :: 0 <= j < k ==> batch[j].node.id != batch[k].node.id
    ensures var data := BeforeSave(true, Nodes(batch), previous, parse);
            var run := AfterSave(true, data, batch, parse);
            && (batch[k].script.status == Returns(Kraked) ==> CompressCall(k) !in run.trace)
            && (batch[k].script.status == Returns(Krakable) && Reached(data, batch, parse, 0, k)
                ==> CompressCall(k) in run.trace)
  {
    var data := BeforeSave(true, Nodes(batch), previous, parse);
    UnchangedNodeReportsNoChange(Nodes(batch), k, parse);
    assert !HasChanged(data.value, Some(batch[k].node), parse);
    CompressCalledIff(true, data, batch, parse, k);
  }
}

=== FILE: handler.dfy ===
/** The two save events of `UmbracoEvent`: `MediaService_Saving` takes the
    before-save snapshot, `MediaService_Saved` walks the saved batch in order,
    compresses the nodes the policy selects, saves successful results and
    reacts to failures (PerplexKraken/UmbracoEvents.cs).

    The host and the Kraken API are not modelled; what they answer is given
    per batch entry as a script: what `Kraken.GetKrakStatus` returns or
    raises, what `Kraken.Compress` returns or raises, and whether
    `result.Save` raises. The handler's field `_umbracoEventMediaData` becomes
    an explicit `Option<MediaData>` that the before-save step produces and the
    after-save step consumes. */
module SaveHandler {
  import opened Media
  import opened Snapshots
  import opened KrakPolicy

  /** An exception a collaborator can raise: a `KrakenException` with its
      status, or anything else (including the `NullReferenceException` of a
      missing snapshot). */
  datatype Exception = KrakenException(status: ApiStatus) | OtherException

  /** The outcome of one collaborator call. */
  datatype Attempt<+T> = Returns(value: T) | Raises(ex: Exception)

  /** The part of a `Kraken.Compress` result the handler looks at. */
  datatype KrakResult = KrakResult(success: bool)

  /** How the collaborators answer for one node: `compress` returns null as
      `Returns(None)`. */
  datatype Script = Script(status: Attempt<KrakStatus>, compress: Attempt<Option<KrakResult>>, save: Attempt<()>)

  /** One node of the saved batch, with the collaborators' answers for it. */
  datatype Entry = Entry(node: MediaNode, script: Script)

  /** A call into the Kraken API, by the position of its node in the batch. */
  datatype HostCall = CompressCall(pos: nat) | SaveCall(pos: nat, wasFileChanged: bool)

  /** How the after-save handler ended: the setting was off, every node was
      tried, a fatal `KrakenException` made it `return`, or another exception
      reached the outer catch, which swallowed it. */
  datatype Ending = Disabled | Completed | Stopped(status: ApiStatus) | Swallowed

  /** The calls the handler issued, in order, and how it ended. */
  datatype Run = Run(trace: seq<HostCall>, ending: Ending)

  /** The body of the inner `try` for one node: the calls it issued and the
      exception it raised, if any. */
  datatype ItemResult = ItemResult(calls: seq<HostCall>, raised: Option<Exception>)

  /** `MediaService_Saving`: when enabled, the field is replaced by a fresh
      snapshot of the batch; otherwise it keeps whatever an earlier batch left. */
  function BeforeSave(enabled: bool, nodes: seq<MediaNode>, current: Option<MediaData>, parse: Parser): (d: Option<MediaData>)
    ensures !enabled ==> d == current
    ensures enabled ==> d.Some? && |d.value.files| == |nodes|
    ensures enabled ==> forall i :: 0 <= i < |nodes| ==> d.value.files[i] == Capture(nodes[i], parse)
  {
    if enabled then Some(Build(nodes, parse)) else current
  }

  /** `_umbracoEventMediaData.HasChanged(im)`: dereferencing a field that was
      never set raises. */
  function ChangeCheck(data: Option<MediaData>, node: MediaNode, parse: Parser): (r: Attempt<bool>)
    ensures r.Raises? <==> data.None?
    ensures r.Raises? ==> r.ex == OtherException
    ensures r.Returns? ==> r.value == HasChanged(data.value, Some(node), parse)
    ensures r == Returns(true) ==> exists i :: EarliestWithId(data.value.files, i, node.id)
  {
    match data
    case None => Raises(OtherException)
    case Some(d) => Returns(HasChanged(d, Some(node), parse))
  }

  /** The node's turn leads to a `Compress` call: the change check and the
      status query both return, and the process decision says go. */
  predicate CompressDue(data: Option<MediaData>, e: Entry, parse: Parser) {
    && data.Some?
    && e.script.status.Returns?
    && ShouldCompress(e.script.status.value, HasChanged(data.value, Some(e.node), parse))
  }

  /** The node's turn leads to a `Save` call: it is compressed and the result
      is non-null and reports success. */
  predicate SaveDue(data: Option<MediaData>, e: Entry, parse: Parser) {
    && CompressDue(data, e, parse)
    && e.script.compress.Returns?
    && e.script.compress.value.Some?
    && e.script.compress.value.value.success
  }

  /** The inner `try` block for the node at position `pos`. */
  function ProcessItem(data: Option<MediaData>, e: Entry, pos: nat, parse: Parser): (r: ItemResult)
    ensures forall c :: c in r.calls ==> c.pos == pos
    ensures CompressCall(pos) in r.calls <==> CompressDue(data, e, parse)
    ensures forall changed :: SaveCall(pos, changed) in r.calls <==>
              SaveDue(data, e, parse) && changed == HasChanged(data.value, Some(e.node), parse)
    ensures r.calls != [] ==> r.calls[0] == CompressCall(pos)
    // `Compress` at most once, `Save` at most once after it
    ensures |r.calls| == (if SaveDue(data, e, parse) then 2 else if CompressDue(data, e, parse) then 1 else 0)
    ensures data.None? ==> r == ItemResult([], Some(OtherException))
    ensures data.Some? && !CompressDue(data, e, parse) ==> r.calls == [] && (r.raised.Some? <==> e.script.status.Raises?)
    // which exception the turn hands to the catch clauses, if any
    ensures data.Some? && e.script.status.Raises? ==> r.raised == Some(e.script.status.ex)
    ensures CompressDue(data, e, parse) && e.script.compress.Raises? ==> r.raised == Some(e.script.compress.ex)
    ensures CompressDue(data, e, parse) && e.script.compress.Returns? && !SaveDue(data, e, parse) ==> r.raised.None?
    ensures SaveDue(data, e, parse) && e.script.save.Raises? ==> r.raised == Some(e.script.save.ex)
    ensures SaveDue(data, e, parse) && e.script.save.Returns? ==> r.raised.None?
  {
    match ChangeCheck(data, e.node, parse)
    case Raises(x) => ItemResult([], Some(x))
    case Returns(changed) =>
      match e.script.status
      case Raises(x) => ItemResult([], Some(x))
      case Returns(status) =>
        if !ShouldCompress(status, changed) then ItemResult([], None)
        else
          match e.script.compress
          case Raises(x) => ItemResult([CompressCall(pos)], Some(x))
          case Returns(result) =>
            if result.Some? && result.value.success then
              var calls := [CompressCall(pos), SaveCall(pos, changed)];
              match e.script.save
              case Raises(x) => ItemResult(calls, Some(x))
              case Returns(_) => ItemResult(calls, None)
            else
              ItemResult([CompressCall(pos)], None)
  }

  /** The exception leaves the loop: either it is not a `KrakenException`
      (the outer catch takes it) or its status makes the switch `return`. */
  predicate Halts(r: ItemResult) {
    r.raised.Some? && (r.raised.value.OtherException? || Classify(r.raised.value.status) == StopHandler)
  }

  /** The loop gets to position `k` when started at `from`: no node before it halts. */
  predicate Reached(data: Option<MediaData>, batch: seq<Entry>, parse: Parser, from: nat, k: nat)
    requires k <= |batch|
  {
    forall j :: from <= j < k ==> !Halts(ProcessItem(data, batch[j], j, parse))
  }

  /** The calls `calls`, followed by the run `rest`. */
  function Prepend(calls: seq<HostCall>, rest: Run): Run {
    Run(calls + rest.trace, rest.ending)
  }

  /** The `foreach` of `MediaService_Saved` from position `from` on. */
  function RunFrom(data: Option<MediaData>, batch: seq<Entry>, from: nat, parse: Parser): (run: Run)
    requires from <= |batch|
    ensures forall c :: c in run.trace ==> from <= c.pos < |batch| && Reached(data, batch, parse, from, c.pos)
    ensures run.ending != Disabled
    ensures run.ending.Stopped? ==> run.ending.status in FatalStatuses
    decreases |batch| - from
  {
    if from == |batch| then Run([], Completed)
    else
      var item := ProcessItem(data, batch[from], from, parse);
      match item.raised
      case None => Prepend(item.calls, RunFrom(data, batch, from + 1, parse))
      case Some(OtherException) => Run(item.calls, Swallowed)
      case Some(KrakenException(s)) =>
        match Classify(s)
        case StopHandler => Run(item.calls, Stopped(s))
        case NextNode => Prepend(item.calls, RunFrom(data, batch, from + 1, parse))
  }

  /** `MediaService_Saved`: nothing happens unless the setting is enabled;
      a missing snapshot ends the handler at the first node, silently. */
  function AfterSave(enabled: bool, data: Option<MediaData>, batch: seq<Entry>, parse: Parser): (run: Run)
    ensures !enabled ==> run == Run([], Disabled)
    ensures enabled && data.None? && |batch| > 0 ==> run == Run([], Swallowed)
    ensures enabled && |batch| == 0 ==> run == Run([], Completed)
    ensures forall c :: c in run.trace ==> c.pos < |batch| && Reached(data, batch, parse, 0, c.pos)
    ensures run.ending.Stopped? ==> run.ending.status in FatalStatuses
  {
    if enabled then RunFrom(data, batch, 0, parse) else Run([], Disabled)
  }
}

=== FILE: media.dfy ===
/** The values the save handler reads from a media node: the tagged property
    values the host returns, the node itself, and the defensive integer read
    that both snapshot capture and the change check apply to height, width
    and size (PerplexKraken/UmbracoEvents.cs). */
module Media {

  /** `Some(v)` for a reference to `v`, `None` for null. */
  datatype Option<+T> = None | Some(value: T) {

    /** The value, or `default` when there is none. */
    function GetOr(default: T): T {
      match this
      case Some(v) => v
      case None => default
    }
  }

  /** The range of a .NET `int` (System.Int32). */
  type Int32 = x: int | -0x8000_0000 <= x <= 0x7FFF_FFFF

  /** A property value as `IMedia.GetValue` hands it out: a boxed `int`, a
      `string`, or an object of any other type. */
  datatype PropertyValue = IntValue(i: Int32) | StringValue(s: string) | OtherValue

  /** A media node as the handler sees it: its id, the image reference that
      `Kraken.GetImage` returns for it, and its property values by alias.
      An alias absent from the map reads as null. */
  datatype MediaNode = MediaNode(id: Int32, image: string, properties: map<string, PropertyValue>)

  /** Property aliases of the three numeric attributes. */
  const HeightAlias: string := "umbracoHeight"
  const WidthAlias: string := "umbracoWidth"
  const SizeAlias: string := "umbracoBytes"

  /** `int.TryParse`: the parsed value, or `None` when the text does not parse.
      Culture, whitespace and overflow rules stay abstract. */
  type Parser = string -> Option<Int32>

  /** `IMedia.GetValue(alias)`: null when the node has no value under `alias`. */
  function GetValue(m: MediaNode, alias: string): Option<PropertyValue> {
    if alias in m.properties then Some(m.properties[alias]) else None
  }

  /** The defensive read of one numeric property: an `int` is taken as it is,
      a string goes through `int.TryParse` (whose out-parameter is 0 on
      failure), and null or a value of any other type leaves the default 0. */
  function ReadInt(v: Option<PropertyValue>, parse: Parser): (n: Int32)
    ensures v.None? ==> n == 0
    ensures v == Some(OtherValue) ==> n == 0
    ensures v.Some? && v.value.IntValue? ==> n == v.value.i
    ensures v.Some? && v.value.StringValue? && parse(v.value.s).Some? ==> n == parse(v.value.s).value
    ensures v.Some? && v.value.StringValue? && parse(v.value.s).None? ==> n == 0
    // a non-zero result always comes from the value itself
    ensures n != 0 ==> v.Some? && (v.value == IntValue(n) || (v.value.StringValue? && parse(v.value.s) == Some(n)))
  {
    match v
    case None => 0
    case Some(IntValue(i)) => i
    case Some(StringValue(s)) => parse(s).GetOr(0)
    case Some(OtherValue) => 0
  }

  /** The numeric attribute stored under `alias`, read defensively. */
  function ReadProperty(m: MediaNode, alias: string, parse: Parser): (n: Int32)
    ensures alias !in m.properties ==> n == 0
    ensures alias in m.properties && m.properties[alias].IntValue? ==> n == m.properties[alias].i
    ensures alias in m.properties && m.properties[alias] == OtherValue ==> n == 0
    ensures alias in m.properties && m.properties[alias].StringValue? ==> n == parse(m.properties[alias].s).GetOr(0)
  {
    ReadInt(GetValue(m, alias), parse)
  }
}

=== FILE: policy.dfy ===
/** The two decisions the after-save handler takes per media node: whether to
    send it to the Kraken API at all, and, when the API call raises a
    `KrakenException`, whether the rest of the batch is still worth trying
    (PerplexKraken/UmbracoEvents.cs). */
module KrakPolicy {

  /** `EnmIsKrakable` as `Kraken.GetKrakStatus` reports it. The handler tests
      only for `Krakable` and `Kraked`; every other member of the enumeration
      is folded into `Ineligible`. */
  datatype KrakStatus = Krakable | Kraked | Ineligible

  /** The process decision: a node that was never kraked is compressed; one
      kraked before is compressed again only when a new file came in. */
  function ShouldCompress(status: KrakStatus, hasChanged: bool): (go: bool)
    ensures status == Krakable ==> go
    ensures status == Kraked ==> (go <==> hasChanged)
    ensures status == Ineligible ==> !go
  {
    status == Krakable || (status == Kraked && hasChanged)
  }

  /** `enmStatus`, the status a `KrakenException` carries; `Unlisted` stands
      for any value the handler's switch does not name. */
  datatype ApiStatus =
    | Ok
    | BadRequest
    | Unauthorized
    | Forbidden
    | RequestLimitReached
    | UnexpectedError
    | FileTooLarge
    | UnsupportedMediaType
    | UnprocessableEntity
    | Unlisted(code: int)

  /** What the handler does after catching a `KrakenException`: `return` from
      the whole handler, or `continue` with the next node. */
  datatype Reaction = StopHandler | NextNode

  /** The statuses after which the handler can no longer proceed. */
  const FatalStatuses: set<ApiStatus> :=
    {BadRequest, Unauthorized, Forbidden, RequestLimitReached, UnexpectedError}

  /** The statuses the handler's switch names as "OK(-ish)". */
  const TolerableStatuses: set<ApiStatus> :=
    {Ok, FileTooLarge, UnsupportedMediaType, UnprocessableEntity}

  /** The `switch (kex.Status)` of the handler's inner catch. */
  function Classify(s: ApiStatus): (r: Reaction)
    ensures r == StopHandler <==> s in FatalStatuses
    ensures s in TolerableStatuses ==> r == NextNode
    ensures s.Unlisted? ==> r == NextNode
  {
    match s
    case BadRequest | Unauthorized | Forbidden | RequestLimitReached | UnexpectedError => StopHandler
    case _ => NextNode
  }

  /** Every status is either named by the switch or falls to its default, and
      the named ones split into fatal and tolerable without overlap. */
  lemma {:induction false} StatusesPartitioned(s: ApiStatus)
    ensures s in FatalStatuses || s in TolerableStatuses || s.Unlisted?
    ensures !(s in FatalStatuses && s in TolerableStatuses)
    ensures Classify(s) == NextNode <==> (s in TolerableStatuses || s.Unlisted?)
  {
    match s
    case Unlisted(_) =>
    case _ =>
  }
}

=== FILE: scenarios.dfy ===
/** Concrete save cycles: small batches whose complete outcome is worked out
    end to end, one per behaviour of the handler worth seeing on an example. */
module Scenarios {
  import opened Media
  import opened Snapshots
  import opened KrakPolicy
  import opened SaveHandler

  /** A node with the given id, image and integer-valued dimensions. */
  function Image(id: Int32, image: string, height: Int32, width: Int32, size: Int32): MediaNode {
    MediaNode(id, image, map[HeightAlias := IntValue(height), WidthAlias := IntValue(width), SizeAlias := IntValue(size)])
  }

  /** The script of a node whose compression succeeds and whose result saves. */
  function Succeeds(status: KrakStatus): Script {
    Script(Returns(status), Returns(Some(KrakResult(true))), Returns(()))
  }

  /** A height stored as the text "abc" reads as 0 and does not raise. */
  lemma UnparsableHeightReadsZero(parse: Parser, id: Int32)
    requires parse("abc") == None
    ensures Capture(MediaNode(id, "a.jpg", map[HeightAlias := StringValue("abc")]), parse).height == 0
  {
  }

  /** A kraked node saved without touching its file is not compressed again;
      the same node with a new size is, and the save reports the change. */
  lemma KrakedNodeRecompressedOnlyWhenChanged(parse: Parser)
    ensures var before := Image(7, "a.jpg", 100, 100, 5000);
            var data := BeforeSave(true, [before], None, parse);
            && AfterSave(true, data, [Entry(before, Succeeds(Kraked))], parse)
               == Run([], Completed)
            && AfterSave(true, data, [Entry(Image(7, "a.jpg", 100, 100, 6000), Succeeds(Kraked))], parse)
               == Run([CompressCall(0), SaveCall(0, true)], Completed)
  {
    var before := Image(7, "a.jpg", 100, 100, 5000);
    var after := Image(7, "a.jpg", 100, 100, 6000);
    var data := BeforeSave(true, [before], None, parse);
    assert EarliestWithId(data.value.files, 0, 7);
    assert !HasChanged(data.value, Some(before), parse);
    assert ReadProperty(after, SizeAlias, parse) == 6000;
    assert HasChanged(data.value, Some(after), parse);
  }

  /** Three never-kraked nodes. */
  function Trio(): seq<MediaNode> {
    [Image(1, "1.jpg", 10, 10, 100), Image(2, "2.jpg", 20, 20, 200), Image(3, "3.jpg", 30, 30, 300)]
  }

  /** The three nodes, the second of which the API refuses with Unauthorized. */
  function RefusedTrio(): seq<Entry> {
    [Entry(Trio()[0], Succeeds(Krakable)),
     Entry(Trio()[1], Script(Returns(Krakable), Raises(KrakenException(Unauthorized)), Returns(()))),
     Entry(Trio()[2], Succeeds(Krakable))]
  }

  /** From the second node on, the loop over `RefusedTrio` compresses the
      second node and stops. */
  lemma RefusedTrioTail(parse: Parser)
    ensures RunFrom(BeforeSave(true, Trio(), None, parse), RefusedTrio(), 1, parse)
            == Run([CompressCall(1)], Stopped(Unauthorized))
  {
    var data := BeforeSave(true, Trio(), None, parse);
    assert ProcessItem(data, RefusedTrio()[1], 1, parse) == ItemResult([CompressCall(1)], Some(KrakenException(Unauthorized)));
  }

  /** Three never-kraked nodes; the API refuses the second with Unauthorized.
      The first node's save stays, the third node is never sent, and the
      handler ends stopped. */
  lemma UnauthorizedStopsBatch(parse: Parser)
    ensures var nodes := [Image(1, "1.jpg", 10, 10, 100), Image(2, "2.jpg", 20, 20, 200), Image(3, "3.jpg", 30, 30, 300)];
            var batch := [Entry(nodes[0], Succeeds(Krakable)),
                          Entry(nodes[1], Script(Returns(Krakable), Raises(KrakenException(Unauthorized)), Returns(()))),
                          Entry(nodes[2], Succeeds(Krakable))];
            AfterSave(true, BeforeSave(true, nodes, None, parse), batch, parse)
            == Run([CompressCall(0), SaveCall(0, false), CompressCall(1)], Stopped(Unauthorized))
  {
    var data := BeforeSave(true, Trio(), None, parse);
    UnchangedNodeReportsNoChange(Trio(), 0, parse);
    assert ProcessItem(data, RefusedTrio()[0], 0, parse) == ItemResult([CompressCall(0), SaveCall(0, false)], None);
    RefusedTrioTail(parse);
  }

  /** Two never-kraked nodes, the second of which the API accepts. */
  function Pair(): seq<MediaNode> {
    [Image(1, "1.jpg", 10, 10, 100), Image(2, "2.jpg", 20, 20, 200)]
  }

  /** The whole run over two never-kraked nodes, when the first node's turn
      issues `first` and raises nothing the switch treats as fatal. */
  lemma {:induction false} SecondNodeStillProcessed(first: Script, parse: Parser, firstCalls: seq<HostCall>)
    requires ProcessItem(BeforeSave(true, Pair(), None, parse), Entry(Pair()[0], first), 0, parse).calls == firstCalls
    requires !Halts(ProcessItem(BeforeSave(true, Pair(), None, parse), Entry(Pair()[0], first), 0, parse))
    ensures AfterSave(true, BeforeSave(true, Pair(), None, parse), [Entry(Pair()[0], first), Entry(Pair()[1], Succeeds(Krakable))], parse)
            == Run(firstCalls + [CompressCall(1), SaveCall(1, false)], Completed)
  {
    var data := BeforeSave(true, Pair(), None, parse);
    var batch := [Entry(Pair()[0], first), Entry(Pair()[1], Succeeds(Krakable))];
    UnchangedNodeReportsNoChange(Pair(), 1, parse);
    assert ProcessItem(data, batch[1], 1, parse) == ItemResult([CompressCall(1), SaveCall(1, false)], None);
    assert RunFrom(data, batch, 1, parse) == Run([CompressCall(1), SaveCall(1, false)], Completed);
  }

  /** A result reporting `success = false` saves nothing, and the next node is
      still processed. */
  lemma FailedResultSkipsSave(parse: Parser)
    ensures var first := Script(Returns(Krakable), Returns(Some(KrakResult(false))), Returns(()));
            AfterSave(true, BeforeSave(true, Pair(), None, parse),
                      [Entry(Pair()[0], first), Entry(Pair()[1], Succeeds(Krakable))], parse)
            == Run([CompressCall(0), CompressCall(1), SaveCall(1, false)], Completed)
  {
    var first := Script(Returns(Krakable), Returns(Some(KrakResult(false))), Returns(()));
    SecondNodeStillProcessed(first, parse, [CompressCall(0)]);
  }

  /** A `KrakenException` with status FileTooLarge skips only its own node. */
  lemma TolerableErrorSkipsNode(parse: Parser)
    ensures var first := Script(Returns(Krakable), Raises(KrakenException(FileTooLarge)), Returns(()));
            AfterSave(true, BeforeSave(true, Pair(), None, parse),
                      [Entry(Pair()[0], first), Entry(Pair()[1], Succeeds(Krakable))], parse)
            == Run([CompressCall(0), CompressCall(1), SaveCall(1, false)], Completed)
  {
    var first := Script(Returns(Krakable), Raises(KrakenException(FileTooLarge)), Returns(()));
    SecondNodeStillProcessed(first, parse, [CompressCall(0)]);
  }
}

=== FILE: snapshots.dfy ===
/** Change detection: the before-save snapshot of a batch of media nodes
    (`UmbracoEventMediaData`, one `UmbracoEventFile` per node) and the check
    `HasChanged` that compares a node's current attributes against the first
    snapshot carrying its id. */
module Snapshots {
  import opened Media

  /** `UmbracoEventFile`: what one node looked like when the snapshot was taken. */
  datatype EventFile = EventFile(id: Int32, file: string, height: Int32, width: Int32, size: Int32)

  /** `UmbracoEventMediaData`: the snapshots of a batch, in batch order. */
  datatype MediaData = MediaData(files: seq<EventFile>)

  /** The `UmbracoEventFile` constructor: the attributes of `m` as they read
      now, each numeric one read defensively under its own alias. */
  function Capture(m: MediaNode, parse: Parser): (f: EventFile)
    ensures f.id == m.id && f.file == m.image
    ensures f.height == ReadProperty(m, HeightAlias, parse)
    ensures f.width == ReadProperty(m, WidthAlias, parse)
    ensures f.size == ReadProperty(m, SizeAlias, parse)
  {
    EventFile(m.id, m.image,
              ReadProperty(m, HeightAlias, parse),
              ReadProperty(m, WidthAlias, parse),
              ReadProperty(m, SizeAlias, parse))
  }

  /** The `UmbracoEventMediaData` constructor: one snapshot per node, appended
      in the order the batch enumerates the nodes. */
  function Build(nodes: seq<MediaNode>, parse: Parser): (d: MediaData)
    ensures |d.files| == |nodes|
    ensures forall i :: 0 <= i < |nodes| ==> d.files[i] == Capture(nodes[i], parse)
    decreases |nodes|
  {
    if |nodes| == 0 then MediaData([])
    else
      var front := Build(nodes[..|nodes| - 1], parse);
      MediaData(front.files + [Capture(nodes[|nodes| - 1], parse)])
  }

  /** `FirstOrDefault(x => x.Id == id)`, as a position: the earliest snapshot
      carrying `id`, or `None` when no snapshot carries it. */
  function FindFirst(files: seq<EventFile>, id: Int32): (r: Option<nat>)
    ensures r.Some? ==> r.value < |files| && files[r.value].id == id
    ensures r.Some? ==> forall j :: 0 <= j < r.value ==> files[j].id != id
    ensures r.None? ==> forall j :: 0 <= j < |files| ==> files[j].id != id
  {
    if |files| == 0 then None
    else if files[0].id == id then Some(0)
    else
      match FindFirst(files[1..], id)
      case None => None
      case Some(k) => Some(k + 1)
  }

  /** True when `files[i]` is the earliest snapshot carrying `id`. */
  predicate EarliestWithId(files: seq<EventFile>, i: int, id: Int32) {
    && 0 <= i < |files|
    && files[i].id == id
    && forall j :: 0 <= j < i ==> files[j].id != id
  }

  /** `HasChanged`: false for a null node and for a node no snapshot knows;
      otherwise whether the image reference, height, width or size now differs
      from the earliest snapshot with the node's id. */
  function HasChanged(d: MediaData, m: Option<MediaNode>, parse: Parser): (changed: bool)
    ensures m.None? ==> !changed
    ensures m.Some? && (forall j :: 0 <= j < |d.files| ==> d.files[j].id != m.value.id) ==> !changed
    ensures forall i :: m.Some? && EarliestWithId(d.files, i, m.value.id) ==>
              (changed <==> d.files[i] != Capture(m.value, parse))
  {
    match m
    case None => false
    case Some(node) =>
      match FindFirst(d.files, node.id)
      case None => false
      case Some(i) =>
        var before := d.files[i];
        before.file != node.image
        || before.height != ReadProperty(node, HeightAlias, parse)
        || before.width != ReadProperty(node, WidthAlias, parse)
        || before.size != ReadProperty(node, SizeAlias, parse)
  }

  /** Building the snapshot of a concatenated batch is concatenating the snapshots. */
  lemma {:induction false} BuildAppend(a: seq<MediaNode>, b: seq<MediaNode>, parse: Parser)
    ensures Build(a + b, parse).files == Build(a, parse).files + Build(b, parse).files
  {
    var whole := Build(a + b, parse).files;
    var parts := Build(a, parse).files + Build(b, parse).files;
    assert |whole| == |parts|;
    forall i | 0 <= i < |whole|
      ensures whole[i] == parts[i]
    {
      if i < |a| {
        assert (a + b)[i] == a[i];
      } else {
        assert (a + b)[i] == b[i - |a|];
      }
    }
  }

  /** A node compared against the batch snapshot taken of itself reports no
      change, provided no earlier node in the batch carries the same id. */
  lemma UnchangedNodeReportsNoChange(nodes: seq<MediaNode>, k: nat, parse: Parser)
    requires k < |nodes|
    requires forall j :: 0 <= j < k ==> nodes[j].id != nodes[k].id
    ensures !HasChanged(Build(nodes, parse), Some(nodes[k]), parse)
  {
    var d := Build(nodes, parse);
    assert EarliestWithId(d.files, k, nodes[k].id);
  }

  /** Only the earliest snapshot with a node's id matters: snapshots appended
      after it never change the answer. */
  lemma {:induction false} LaterSnapshotsIgnored(d: MediaData, extra: seq<EventFile>, m: MediaNode, parse: Parser)
    requires exists j :: 0 <= j < |d.files| && d.files[j].id == m.id
    ensures HasChanged(MediaData(d.files + extra), Some(m), parse) == HasChanged(d, Some(m), parse)
  {
    var i := FindFirst(d.files, m.id);
    assert i.Some?;
    var k := i.value;
    var files' := d.files + extra;
    assert EarliestWithId(d.files, k, m.id);
    assert files'[k] == d.files[k];
    forall j | 0 <= j < k
      ensures files'[j].id != m.id
    {
      assert files'[j] == d.files[j];
    }
    assert EarliestWithId(files', k, m.id);
  }

  /** Within one batch whose ids are distinct, a node is reported changed
      exactly when its current attributes differ from its own snapshot. */
  lemma {:induction false} ChangedIffDiffersFromOwnSnapshot(nodes: seq<MediaNode>, k: nat, now: MediaNode, parse: Parser)
    requires k < |nodes|
    requires forall j :: 0 <= j < k ==> nodes[j].id != nodes[k].id
    requires now.id == nodes[k].id
    ensures HasChanged(Build(nodes, parse), Some(now), parse)
            <==> (now.image != nodes[k].image
                  || ReadProperty(now, HeightAlias, parse) != ReadProperty(nodes[k], HeightAlias, parse)
                  || ReadProperty(now, WidthAlias, parse) != ReadProperty(nodes[k], WidthAlias, parse)
                  || ReadProperty(now, SizeAlias, parse) != ReadProperty(nodes[k], SizeAlias, parse))
  {
    var d := Build(nodes, parse);
    forall j | 0 <= j < k
      ensures d.files[j].id != now.id
    {
      assert d.files[j].id == nodes[j].id;
    }
    assert EarliestWithId(d.files, k, now.id);
  }
}
